=== FILE: README.md ===
# Inspirational quotes API: a Dafny model of the query layer

The service loads a fixed array of quote records once, then answers read-only
HTTP GET requests over it: a random quote, a paginated listing, free-text
search, filters by author, tag, date prefix and length range, lookup by
`_id`, and a sorted listing of all tags. This project models every one of those
route handlers (`index.js:979-1066`) as a pure Dafny function. Each takes the
quote sequence and the already-parsed request parameters and returns the
response body or an error. The project also proves what each handler
returns.

Files and modules:

- `js_array.dfy`, module `JsArray`: an optional value for a parameter that is
  missing or NaN, the `parseInt(x) || d` fallback, integer multiplication,
  and `Array.prototype.slice`, `filter` and `find`. `slice` counts a negative
  index from the end and clamps both bounds into `[0, length]`. `Positions`
  gives the ascending indices that `filter` keeps, and `filter` is proved to
  return exactly the elements at those indices.
- `js_string.dfy`, module `JsString`: ASCII `toLowerCase`, `indexOf`/`includes`,
  `startsWith`, and the default string order that `sort()` uses.
- `quotes.dfy`, module `Quotes`: the `Quote` record and the handlers'
  `filter`/`find` callbacks, one `Criterion` each.
- `tag_index.dfy`, module `TagIndex`: the insertion-ordered `Set` of tag strings,
  the sort of its contents, and the proof that there is only one ascending
  arrangement of a set of strings.
- `routes.dfy`, module `Routes`: the nine handlers, their response bodies and
  errors, and the lemmas about them.
- `scenarios.dfy`, module `Scenarios`: worked examples on small
  collections.

Behaviour a reader might not expect:

- `limit=0` is falsy, so it falls back to the collection size. `page=1&limit=0`
  therefore returns every quote, not an empty page (`Scenarios.LimitZeroExample`).
- The lookup compares the `_id` field; the route parameter is only named `:id`.
- An empty `q` is rejected with the same 400 error as a missing one.
- Tags are deduplicated by exact string, so `"Work"` and `"work"` are both
  listed (`Scenarios.CaseVariantTagsExample`).
- A negative `page` or `limit` reaches `slice` unchanged. With a positive
  limit, a negative page counts its window from the end of the collection,
  and the window is empty once it falls before index 0
  (`Routes.NegativePageCountsFromEnd`). A negative limit gives quotes only on
  page 1, where `slice(0, limit)` drops that many quotes from the end
  (`Routes.NegativeLimitDropsTail`); every other page is empty, because its
  end bound lies below its start bound (`Routes.NegativeLimitEmptyAfterFirstPage`).
- `max=0` falls back to `Infinity`, so the maximum is unbounded and is echoed
  as "unlimited".

## Model

| member | source | states |
|---|---|---|
| `JsArray.OrDefault` | index.js:985-986 | `parseInt(x) \|\| d` yields `d` when the parsed value is NaN or 0 and the parsed value otherwise; with a non-zero default the result is never 0 |
| `JsArray.RelativeIndex` | index.js:994 | one `slice` bound: a negative index counts back from the length `n`, and the result is clamped into `[0, n]` |
| `JsArray.Slice` | index.js:994 | `slice(start, end)` is `s[from..to]` of the two clamped bounds when `from <= to`, and empty otherwise |
| `JsArray.SliceIsWindow` | index.js:994 | whatever the bounds, `slice` returns one contiguous window `s[lo..hi]` of the array |
| `JsArray.SliceNonNegative` | index.js:994 | with `0 <= start <= end`, `slice(start, end)` is `s[min(start,n)..min(end,n)]` |
| `JsArray.Times` | index.js:987 | the product `(page - 1) * limit` is non-negative for non-negative factors and negative when `page - 1 < 0 < limit` |
| `JsArray.TimesIsProduct` | index.js:987 | `Times` is integer multiplication |
| `JsString.Lower` | index.js:999-1000 | `toLowerCase` keeps the length and lowers each character in place |
| `JsString.Includes` | index.js:1001 | `includes` (via `indexOf`) holds iff the needle occurs at some index |
| `JsString.IndexOf` | index.js:1001 | `indexOf` returns the first occurrence at or after `from`, or -1 when there is none |
| `JsString.LowerEmpty` | index.js:999-1000 | the lowered query is empty (falsy) iff the query is empty |
| `JsString.IncludesLowered` | index.js:1001 | lowering both sides keeps every occurrence, so a case-sensitive hit is also a case-insensitive one |
| `JsString.StartsWith` | index.js:1040 | `startsWith` is an occurrence at index 0, case-sensitive, and implies `includes` |
| `JsString.LessTransitive` | index.js:1053 | the default sort order on strings is transitive |
| `JsString.LessTotal` | index.js:1053 | any two distinct strings are ordered one way or the other |
| `Quotes.CallbackMeaning` | index.js:1001-1060 | each handler callback in terms of the string built-ins: a substring of the lowered content (1001) or author (1011); some lowered tag equal to the needle (1021-1023); exact `_id` equality (1033); a case-sensitive prefix of `dateAdded` (1040); `min <= length` and, for a finite maximum, `length <= max` (1060) |
| `Quotes.LowerAll` | index.js:1022 | `tags.map((t) => t.toLowerCase())` keeps the length and lowers each tag in place |
| `Quotes.TagIsExact` | index.js:1021-1023 | the tag callback holds iff some tag, lowered, equals the lowered request exactly |
| `JsArray.Positions` | index.js:1001 | the reference selection: strictly ascending indices, each of a matching element, and every matching index listed |
| `JsArray.Filter` | index.js:1001 | `filter` returns exactly the elements at `Positions`, in order; `x` is in the result iff `x` is in the input and matches |
| `JsArray.FilterSubMultiset` | index.js:1001 | `filter` never introduces or repeats a record: the result's multiset is within the input's |
| `JsArray.Find` | index.js:1033 | `find` returns the first matching index; it is `undefined` iff no element matches |
| `JsArray.FindIsHeadOfFilter` | index.js:1033 | `find` returns the head of what `filter` keeps with the same callback, and `undefined` iff `filter` keeps nothing |
| `Routes.RandomIndex` | index.js:980 | `Math.floor(u * n)` with `u` in `[0, 1)` is a valid index when `n > 0` |
| `Routes.RandomQuote` | index.js:979-982 | the random pick is a member of the collection, and is `undefined` iff the collection is empty |
| `Routes.RandomReachesEvery` | index.js:980 | every quote can be drawn: in exact arithmetic, the draw `i / n` lands on index `i` and returns `quotes[i]` |
| `Routes.Paginate` | index.js:984-996 | NaN/0 `page` becomes 1 and NaN/0 `limit` becomes the collection size, otherwise both are echoed; `total` is the collection size; the results are the page slice of the echoed `page` and `limit` |
| `Routes.PageSlice` | index.js:987-994 | for positive page and limit, with `start = (page - 1) * limit`, the results are `quotes[min(start,n)..min(start+limit,n)]` |
| `Routes.EchoIsStable` | index.js:985-993 | requesting the `page` and `limit` that a response echoes gives the same response again |
| `Routes.PageSize` | index.js:987-994 | for positive page and limit, the page holds `min(limit, total - start)` quotes when `start < total`, and none otherwise |
| `Routes.PastTheEndIsEmpty` | index.js:987-995 | a page past the end is empty rather than an error, and `total` still counts the whole collection |
| `Routes.LimitZeroIsWholeCollection` | index.js:985-994 | `limit=0` becomes the collection size, so the first page is the whole collection |
| `Routes.NegativePageCountsFromEnd` | index.js:985-994 | a negative page makes both slice bounds negative, and the page is the window counted from the end |
| `Routes.NegativeLimitDropsTail` | index.js:986-994 | a negative limit on page 1 drops that many quotes from the end |
| `Routes.NegativeLimitEmptyAfterFirstPage` | index.js:985-994 | with a negative limit, every page other than page 1 is empty |
| `Routes.Search` | index.js:998-1007 | a missing or empty `q` gives the 400 "Missing search query" error and nothing else does; otherwise the results are the quotes whose lowered content contains the lowered query, in order, `total` is their count and the query is echoed verbatim |
| `Routes.SearchFindsVerbatim` | index.js:999-1001 | a quote whose content contains a non-empty query verbatim is always among the search results |
| `Routes.ByAuthor` | index.js:1009-1017 | the results are the quotes whose lowered author contains the lowered name, in order; `total` counts them and the name is echoed |
| `Routes.ByTag` | index.js:1019-1029 | the results are the quotes with a tag equal to the requested tag once both are lowered, in order; `total` counts them and the tag is echoed |
| `Routes.ById` | index.js:1031-1036 | the result is found iff some quote has that `_id`, and it is then the first such quote; otherwise the 404 "Quote not found" error |
| `Routes.ByIdFindsRecord` | index.js:1032-1035 | with unique `_id`s, looking up a quote's own `_id` returns exactly that quote |
| `Routes.ByDate` | index.js:1038-1046 | the results are the quotes whose `dateAdded` has `date` as a case-sensitive prefix, in order; `total` counts them and the date is echoed |
| `TagIndex.Add` | index.js:1050 | `set.add(t)` keeps the set duplicate-free and its entries in order, and adds exactly `t` |
| `TagIndex.AddAll` | index.js:1050 | adding tags to the set keeps it duplicate-free, keeps its earlier entries in order, and adds exactly the given tags |
| `TagIndex.CollectFrom` | index.js:1050 | visiting the quotes from index `from` on adds exactly their tags, duplicate-free, after the earlier entries |
| `TagIndex.DistinctTags` | index.js:1049-1050 | the set's contents are duplicate-free and are exactly the collection's tag strings |
| `TagIndex.DistinctTagsCount` | index.js:1052 | `tags.size` is the number of distinct tag strings in the collection |
| `TagIndex.Insert` | index.js:1053 | inserting a new string into an ascending sequence keeps it ascending and adds exactly that string |
| `TagIndex.Sort` | index.js:1053 | sorting the set's contents gives a strictly ascending sequence with the same elements and the same length |
| `TagIndex.AscendingUnique` | index.js:1053 | two strictly ascending sequences with the same elements are equal |
| `Routes.ListTags` | index.js:1048-1055 | the tags are strictly ascending; `total` equals their count and the number of distinct tags; a string is listed iff it is verbatim a tag of some quote |
| `Routes.ListTagsIsDetermined` | index.js:1053 | any strictly ascending sequence of exactly the collection's tags is the listing |
| `Routes.MaxBound` | index.js:1059 | NaN or 0 for `max` gives the unbounded maximum; otherwise the bound is the parsed value |
| `Routes.ByLength` | index.js:1057-1066 | NaN/0 `min` becomes 0, and the max rule is echoed in `filter`; a quote is included iff `min <= length <= max`, in order, with `total` counting them |
| `Routes.LengthBoundsInclusive` | index.js:1060 | a quote whose length equals `min` or `max` is included |
| `Routes.LengthEmptyWhenMinAboveMax` | index.js:1060 | a minimum above a finite maximum gives an empty result with `total` 0, not an error |
| `Scenarios.SearchExample` | index.js:998-1006 | searching "LOVE" finds the example quote and echoes "LOVE"; an empty or missing query is the 400 error |
| `Scenarios.TagExample` | index.js:1019-1023 | tag "WORK" matches the tag "work", while "wor" matches nothing |
| `Scenarios.LimitZeroExample` | index.js:985-995 | `page=1&limit=0` returns the whole collection with `limit` equal to its size |
| `Scenarios.CaseVariantTagsExample` | index.js:1048-1054 | tags "Work" and "work" are both listed, "Work" first, and `total` is 2 |

## Left out

- The HTML documentation page (`index.js:60-977`): string templating with no logic.
- Environment configuration and `dotenv` (`index.js:1-18`): process configuration.
- The rate limiter and `helmet` middleware (`index.js:32-48`): third-party libraries whose code is not part of this model.
- Debug logging, the `/health` endpoint and the startup banner (`index.js:50-56`, `1069-1077`, `1109-1129`): I/O, the clock and process uptime.
- The 404 catch-all and the 500 error handler (`index.js:1080-1107`): Express plumbing.
- Reading and parsing `quotes.json` (`index.js:21-22`): file I/O and JSON parsing. The quote sequence is a parameter of every handler.
- `Math.random`: the draw is a parameter `u` with `0 <= u < 1`.
- Routes.RandomReachesEvery: `u * quotes.length` is exact real multiplication here, and IEEE-754 rounding is not modelled. With doubles, `(1/49) * 49` rounds to `0.9999999999999999`, so the witness `i / n` can land on index `i - 1`. Every quote is still reachable through other doubles, but the lemma does not prove that.
- `parseInt` on the raw query string: the handlers take its result as an optional integer, with `None` for NaN.
- JavaScript numbers are doubles. `page`, `limit`, `min` and `max` are unbounded integers here, so precision loss and `parseInt` overflowing to `Infinity` are not modelled.
- `toLowerCase` maps only the ASCII letters A-Z. Full Unicode case mapping, including mappings that change a string's length, is not modelled.
- `Less` compares strings by character code point. JavaScript's `sort()` compares UTF-16 code units, and the two orders differ only for characters above U+FFFF.
- `TagIndex.Sort` requires a duplicate-free input: the handler only sorts the contents of a `Set`, and sorting arbitrary arrays is not modelled.
- A `q` that is not a string (a repeated query key gives an array) throws a `TypeError` in the handler. That error path is not modelled.
- Records with missing or non-string fields in the data file are not modelled. Every `Quote` has all six fields, and `length` is taken as stored, without being checked against `content`.

=== FILE: js_array.dfy ===
/** JavaScript built-ins on numbers and arrays that the route handlers rely on:
    a parsed query parameter that may be missing or NaN, the `parseInt(x) || d`
    fallback rule, the index arithmetic of `Array.prototype.slice`, and
    `Array.prototype.filter` and `Array.prototype.find` with a callback `p`. */
module JsArray {

  /** A value that may be absent. For a parsed query parameter, `None` stands
      for `NaN` (the parameter was missing or not a number). */
  datatype Option<+T> = None | Some(value: T)

  function Min(a: int, b: int): (m: int)
    ensures m <= a && m <= b && (m == a || m == b)
  {
    if a <= b then a else b
  }

  function Max(a: int, b: int): (m: int)
    ensures a <= m && b <= m && (m == a || m == b)
  {
    if a <= b then b else a
  }

  /** The first element of a non-empty array is one of its elements. */
  lemma HeadIsMember<T>(s: seq<T>)
    requires |s| > 0
    ensures s[0] in s
  {
  }

  /** `a * b` on integers, written as repeated addition over `a` so that the
      page arithmetic reasons only about the step from `a` to `a + 1` and
      about signs; `TimesIsProduct` shows it is the product. */
  function Times(a: int, b: int): (r: int)
    ensures a >= 0 && b >= 0 ==> r >= 0
    ensures a < 0 && b > 0 ==> r <= a
    ensures a > 0 && b < 0 ==> r <= b
    ensures a <= 0 && b <= 0 ==> r >= 0
    decreases if a < 0 then -a else a
  {
    if a == 0 then 0
    else if a > 0 then Times(a - 1, b) + b
    else Times(a + 1, b) - b
  }

  lemma {:induction false} TimesIsProduct(a: int, b: int)
    ensures Times(a, b) == a * b
    decreases if a < 0 then -a else a
  {
    if a > 0 {
      TimesIsProduct(a - 1, b);
      ProductStep(a - 1, b);
    } else if a < 0 {
      TimesIsProduct(a + 1, b);
      ProductStep(a, b);
    }
  }

  /** One more row of `b`: `(a + 1) * b == a * b + b`. */
  lemma ProductStep(a: int, b: int)
    ensures (a + 1) * b == a * b + b
  {
  }

  /** `Times` gains one `b` when its first factor grows by one, on both
      sides of zero. */
  lemma TimesStep(a: int, b: int)
    ensures Times(a + 1, b) == Times(a, b) + b
  {
  }

  /** `parseInt(x) || d`: NaN and 0 are both falsy, so either one yields the default. */
  function OrDefault(parsed: Option<int>, d: int): (r: int)
    ensures parsed.None? || parsed.value == 0 ==> r == d
    ensures parsed.Some? && parsed.value != 0 ==> r == parsed.value
    ensures d != 0 ==> r != 0
  {
    match parsed
    case None => d
    case Some(v) => if v == 0 then d else v
  }

  /** One argument of `slice`: a negative index counts from the end, and the
      result is clamped into `[0, n]`. */
  function RelativeIndex(i: int, n: nat): (k: nat)
    ensures k <= n
    ensures 0 <= i <= n ==> k == i
    ensures i < 0 && 0 <= n + i ==> k == n + i
    ensures i > n ==> k == n
    ensures n + i < 0 ==> k == 0
  {
    if i < 0 then Max(n + i, 0) else Min(i, n)
  }

  /** `s.slice(start, end)`. */
  function Slice<T>(s: seq<T>, start: int, end: int): (r: seq<T>)
    ensures |r| <= |s|
    ensures RelativeIndex(start, |s|) <= RelativeIndex(end, |s|) ==>
              r == s[RelativeIndex(start, |s|)..RelativeIndex(end, |s|)]
    ensures RelativeIndex(end, |s|) <= RelativeIndex(start, |s|) ==> r == []
  {
    var from := RelativeIndex(start, |s|);
    var to := RelativeIndex(end, |s|);
    if from < to then s[from..to] else []
  }

  /** Every slice is a contiguous window of the array: it never reorders,
      repeats or invents an element. */
  lemma SliceIsWindow<T>(s: seq<T>, start: int, end: int)
    ensures exists lo, hi :: 0 <= lo <= hi <= |s| && Slice(s, start, end) == s[lo..hi]
  {
    var from := RelativeIndex(start, |s|);
    var to := RelativeIndex(end, |s|);
    if from < to {
      assert Slice(s, start, end) == s[from..to];
    } else {
      assert Slice(s, start, end) == s[from..from];
    }
  }

  /** With non-negative bounds, `slice` is the ordinary half-open slice,
      truncated at the end of the array. */
  lemma SliceNonNegative<T>(s: seq<T>, start: int, end: int)
    requires 0 <= start <= end
    ensures Slice(s, start, end) == s[Min(start, |s|)..Min(end, |s|)]
  {
  }

  /** The indices in `[from, |s|)` whose element satisfies `p`, ascending:
      the reference definition of what `filter` keeps. */
  function Positions<T>(s: seq<T>, p: T -> bool, from: nat): (idx: seq<nat>)
    requires from <= |s|
    ensures |idx| <= |s| - from
    ensures forall k :: 0 <= k < |idx| ==> from <= idx[k] < |s| && p(s[idx[k]])
    ensures forall k, l :: 0 <= k < l < |idx| ==> idx[k] < idx[l]
    ensures forall i :: from <= i < |s| && p(s[i]) ==> i in idx
    decreases |s| - from
  {
    if from == |s| then []
    else if p(s[from]) then [from] + Positions(s, p, from + 1)
    else Positions(s, p, from + 1)
  }

  /** `r` holds exactly the elements of `s` at the indices `Positions`
      selects, in the same order. */
  ghost predicate SelectedBy<T>(r: seq<T>, s: seq<T>, p: T -> bool)
  {
    var idx := Positions(s, p, 0);
    |r| == |idx| && forall k :: 0 <= k < |r| ==> r[k] == s[idx[k]]
  }

  /** The part of `filter` that visits `s[from..]`. */
  function FilterFrom<T>(s: seq<T>, p: T -> bool, from: nat): (r: seq<T>)
    requires from <= |s|
    ensures |r| <= |s| - from
    decreases |s| - from
  {
    if from == |s| then []
    else if p(s[from]) then [s[from]] + FilterFrom(s, p, from + 1)
    else FilterFrom(s, p, from + 1)
  }

  /** What `FilterFrom` keeps is the element at each index `Positions` lists. */
  lemma {:induction false} FilterFromSelects<T>(s: seq<T>, p: T -> bool, from: nat)
    requires from <= |s|
    ensures |FilterFrom(s, p, from)| == |Positions(s, p, from)|
    ensures forall k :: 0 <= k < |FilterFrom(s, p, from)| ==>
              FilterFrom(s, p, from)[k] == s[Positions(s, p, from)[k]]
    decreases |s| - from
  {
    if from < |s| {
      FilterFromSelects(s, p, from + 1);
      if p(s[from]) {
        SelectsCons(s, from, FilterFrom(s, p, from + 1), Positions(s, p, from + 1));
      }
    }
  }

  /** Putting `s[i]` in front of a selection and `i` in front of its indices
      keeps each selected element at its index. */
  lemma SelectsCons<T>(s: seq<T>, i: nat, r: seq<T>, idx: seq<nat>)
    requires i < |s| && |r| == |idx|
    requires forall k :: 0 <= k < |idx| ==> idx[k] < |s| && r[k] == s[idx[k]]
    ensures forall k :: 0 <= k < |idx| + 1 ==> ([i] + idx)[k] < |s| && ([s[i]] + r)[k] == s[([i] + idx)[k]]
  {
  }

  /** `s.filter(p)`: the order-preserving subsequence of the elements that
      satisfy `p`. */
  function Filter<T(!new)>(s: seq<T>, p: T -> bool): (r: seq<T>)
    ensures SelectedBy(r, s, p)
    ensures forall x :: x in r <==> x in s && p(x)
    ensures |r| <= |s|
  {
    var r := FilterFrom(s, p, 0);
    FilterFromSelects(s, p, 0);
    FilterMembers(s, p, r);
    r
  }

  lemma FilterMembers<T>(s: seq<T>, p: T -> bool, r: seq<T>)
    requires SelectedBy(r, s, p)
    ensures forall x :: x in r <==> x in s && p(x)
  {
    var idx := Positions(s, p, 0);
    forall x | x in s && p(x)
      ensures x in r
    {
      var i :| 0 <= i < |s| && s[i] == x;
      assert i in idx;
      var k :| 0 <= k < |idx| && idx[k] == i;
      assert r[k] == x;
    }
  }

  lemma {:induction false} FilterFromSubMultiset<T>(s: seq<T>, p: T -> bool, from: nat)
    requires from <= |s|
    ensures multiset(FilterFrom(s, p, from)) <= multiset(s[from..])
    decreases |s| - from
  {
    if from < |s| {
      FilterFromSubMultiset(s, p, from + 1);
      var rest := FilterFrom(s, p, from + 1);
      assert s[from..] == [s[from]] + s[from + 1..];
      ConsMultiset(s[from], s[from + 1..]);
      if p(s[from]) {
        ConsMultiset(s[from], rest);
      }
    }
  }

  lemma ConsMultiset<T>(h: T, t: seq<T>)
    ensures multiset([h] + t) == multiset{h} + multiset(t)
  {
  }

  /** `filter` never introduces or repeats an element. */
  lemma FilterSubMultiset<T(!new)>(s: seq<T>, p: T -> bool)
    ensures multiset(Filter(s, p)) <= multiset(s)
  {
    FilterFromSubMultiset(s, p, 0);
    assert s[0..] == s;
  }

  /** The first index at or after `from` whose element satisfies `p`. */
  function FindFrom<T>(s: seq<T>, p: T -> bool, from: nat): (r: Option<nat>)
    requires from <= |s|
    ensures r.Some? ==> from <= r.value < |s| && p(s[r.value])
    ensures r.Some? ==> forall j :: from <= j < r.value ==> !p(s[j])
    ensures r.None? ==> forall j :: from <= j < |s| ==> !p(s[j])
    decreases |s| - from
  {
    if from == |s| then None
    else if p(s[from]) then Some(from)
    else FindFrom(s, p, from + 1)
  }

  /** The index of the element `s.find(p)` returns, or `None` for `undefined`. */
  function Find<T>(s: seq<T>, p: T -> bool): (r: Option<nat>)
    ensures r.Some? ==> r.value < |s| && p(s[r.value])
    ensures r.Some? ==> forall j :: 0 <= j < r.value ==> !p(s[j])
    ensures r.None? <==> forall j :: 0 <= j < |s| ==> !p(s[j])
  {
    FindFrom(s, p, 0)
  }

  /** `FindFrom` stops at the first index `Positions` lists. */
  lemma {:induction false} FindFromFirstPosition<T>(s: seq<T>, p: T -> bool, from: nat)
    requires from <= |s|
    ensures FindFrom(s, p, from).None? ==> Positions(s, p, from) == []
    ensures FindFrom(s, p, from).Some? ==>
              |Positions(s, p, from)| > 0 && Positions(s, p, from)[0] == FindFrom(s, p, from).value
    decreases |s| - from
  {
    if from < |s| && !p(s[from]) {
      FindFromFirstPosition(s, p, from + 1);
    }
  }

  /** `find` and `filter` agree: `find` yields the head of what `filter`
      keeps, and `undefined` exactly when `filter` keeps nothing. */
  lemma FindIsHeadOfFilter<T(!new)>(s: seq<T>, p: T -> bool)
    ensures Find(s, p).None? <==> Filter(s, p) == []
    ensures Find(s, p).Some? ==> Filter(s, p)[0] == s[Find(s, p).value]
  {
    FindFromFirstPosition(s, p, 0);
  }
}

=== FILE: js_string.dfy ===
/** JavaScript string built-ins used by the handlers: `toLowerCase`,
    `includes`, `startsWith`, and the comparison that `Array.prototype.sort`
    uses when it is given no comparator. */
module JsString {

  /** Case mapping of one character, restricted to ASCII letters. */
  function LowerChar(c: char): (r: char)
    ensures !('A' <= r <= 'Z')
    ensures 'A' <= c <= 'Z' ==> r as int == c as int + 32
    ensures !('A' <= c <= 'Z') ==> r == c
  {
    if 'A' <= c <= 'Z' then (c as int + 32) as char else c
  }

  /** `s.toLowerCase()`, with the ASCII case mapping. */
  function Lower(s: string): (r: string)
    ensures |r| == |s|
    ensures forall i :: 0 <= i < |s| ==> r[i] == LowerChar(s[i])
  {
    seq(|s|, i requires 0 <= i < |s| => LowerChar(s[i]))
  }

  /** Only the empty string lowers to the empty (falsy) string. */
  lemma LowerEmpty(s: string)
    ensures Lower(s) == "" <==> s == ""
  {
  }

  /** Lowering commutes with taking a slice. */
  lemma LowerSlice(s: string, i: nat, j: nat)
    requires i <= j <= |s|
    ensures Lower(s)[i..j] == Lower(s[i..j])
  {
  }

  /** `sub` occurs in `s` starting at index `i`. */
  predicate OccursAt(s: string, sub: string, i: int)
  {
    0 <= i && i + |sub| <= |s| && s[i..i + |sub|] == sub
  }

  /** `s.indexOf(sub, from)`: the first index at or after `from` where `sub`
      occurs, or -1. */
  function IndexOf(s: string, sub: string, from: nat): (r: int)
    requires from <= |s|
    ensures r == -1 || (from <= r && OccursAt(s, sub, r))
    ensures r == -1 ==> forall i :: from <= i ==> !OccursAt(s, sub, i)
    ensures r != -1 ==> forall i :: from <= i < r ==> !OccursAt(s, sub, i)
    decreases |s| + 1 - from
  {
    if from + |sub| > |s| then -1
    else if s[from..from + |sub|] == sub then from
    else IndexOf(s, sub, from + 1)
  }

  /** `s.includes(sub)`, which is `s.indexOf(sub) !== -1`. */
  function Includes(s: string, sub: string): (b: bool)
    ensures b <==> exists i :: OccursAt(s, sub, i)
  {
    IndexOf(s, sub, 0) != -1
  }

  /** Lowering both sides keeps every occurrence: a case-sensitive match is
      also a case-insensitive one. */
  lemma {:induction false} IncludesLowered(s: string, sub: string)
    requires Includes(s, sub)
    ensures Includes(Lower(s), Lower(sub))
  {
    var i :| OccursAt(s, sub, i);
    LowerSlice(s, i, i + |sub|);
    assert OccursAt(Lower(s), Lower(sub), i);
  }

  /** `s.startsWith(prefix)`: case-sensitive, at position 0. */
  function StartsWith(s: string, prefix: string): (b: bool)
    ensures b <==> OccursAt(s, prefix, 0)
    ensures b ==> Includes(s, prefix)
  {
    |prefix| <= |s| && s[..|prefix|] == prefix
  }

  /** The default order of `Array.prototype.sort` on strings: lexicographic
      by character, a proper prefix first. */
  predicate Less(a: string, b: string)
  {
    if |a| == 0 then |b| != 0
    else |b| != 0 && (a[0] < b[0] || (a[0] == b[0] && Less(a[1..], b[1..])))
  }

  lemma {:induction false} LessIrreflexive(a: string)
    ensures !Less(a, a)
  {
    if |a| != 0 {
      LessIrreflexive(a[1..]);
    }
  }

  lemma {:induction false} LessTransitive(a: string, b: string, c: string)
    requires Less(a, b) && Less(b, c)
    ensures Less(a, c)
  {
    if |a| != 0 && a[0] == b[0] && b[0] == c[0] {
      LessTransitive(a[1..], b[1..], c[1..]);
    }
  }

  lemma {:induction false} LessTotal(a: string, b: string)
    requires a != b
    ensures Less(a, b) || Less(b, a)
  {
    if |a| != 0 && |b| != 0 && a[0] == b[0] {
      assert a == [a[0]] + a[1..] && b == [b[0]] + b[1..];
      LessTotal(a[1..], b[1..]);
    }
  }

  lemma LessAsymmetric(a: string, b: string)
    requires Less(a, b)
    ensures !Less(b, a)
  {
    if Less(b, a) {
      LessTransitive(a, b, a);
      LessIrreflexive(a);
    }
  }
}

=== FILE: quotes.dfy ===
/** The quote record and the match criteria the handlers' callbacks test. */
module Quotes {
  import opened JsString

  /** One record of the loaded collection. `length` is the stored character
      count; nothing checks it against `content`. */
  datatype Quote = Quote(
    _id: string,
    content: string,
    author: string,
    tags: seq<string>,
    length: int,
    dateAdded: string)

  /** Upper end of the length filter; `Unlimited` is the `Infinity` fallback,
      echoed as "unlimited". */
  datatype Bound = Unlimited | AtMost(n: int)

  /** The bodies of the handlers' callbacks. The needles of
      `ContentHas`, `AuthorHas` and `TagIs` are already lower-cased. */
  datatype Criterion =
    | ContentHas(needle: string)
    | AuthorHas(needle: string)
    | TagIs(tag: string)
    | DatePrefix(prefix: string)
    | LengthWithin(min: int, max: Bound)
    | IdIs(id: string)

  /** `tags.map((t) => t.toLowerCase())`. */
  function LowerAll(ts: seq<string>): (r: seq<string>)
    ensures |r| == |ts|
    ensures forall i :: 0 <= i < |ts| ==> r[i] == Lower(ts[i])
  {
    if |ts| == 0 then [] else [Lower(ts[0])] + LowerAll(ts[1..])
  }

  predicate WithinMax(len: int, max: Bound)
  {
    match max
    case Unlimited => true
    case AtMost(n) => len <= n
  }

  /** The body of each handler's callback. */
  predicate Matches(c: Criterion, q: Quote)
  {
    match c
    case ContentHas(needle) => Includes(Lower(q.content), needle)
    case AuthorHas(needle) => Includes(Lower(q.author), needle)
    case TagIs(tag) => tag in LowerAll(q.tags)
    case DatePrefix(prefix) => StartsWith(q.dateAdded, prefix)
    case LengthWithin(min, max) => q.length >= min && WithinMax(q.length, max)
    case IdIs(id) => q._id == id
  }

  /** The callback a handler passes to `filter` or `find`. */
  function Callback(c: Criterion): Quote -> bool
  {
    q => Matches(c, q)
  }

  /** What each callback tests, in terms of the string built-ins rather
      than `Matches`: a lowered substring for content and author, an exact
      lowered tag, a case-sensitive date prefix, an inclusive length range,
      and exact `_id` equality. */
  lemma CallbackMeaning(c: Criterion, q: Quote)
    ensures c.ContentHas? ==>
              (Callback(c)(q) <==> exists i :: OccursAt(Lower(q.content), c.needle, i))
    ensures c.AuthorHas? ==>
              (Callback(c)(q) <==> exists i :: OccursAt(Lower(q.author), c.needle, i))
    ensures c.TagIs? ==>
              (Callback(c)(q) <==> exists j :: 0 <= j < |q.tags| && Lower(q.tags[j]) == c.tag)
    ensures c.DatePrefix? ==>
              (Callback(c)(q) <==> |c.prefix| <= |q.dateAdded| && q.dateAdded[..|c.prefix|] == c.prefix)
    ensures c.LengthWithin? ==>
              (Callback(c)(q) <==> c.min <= q.length && (c.max.AtMost? ==> q.length <= c.max.n))
    ensures c.IdIs? ==> (Callback(c)(q) <==> q._id == c.id)
  {
    if c.TagIs? {
      TagIsExact(c.tag, q);
    }
  }

  /** The tag criterion is an exact comparison against some lowered tag, not
      a substring test. */
  lemma TagIsExact(tag: string, q: Quote)
    ensures Matches(TagIs(tag), q) <==> exists j :: 0 <= j < |q.tags| && Lower(q.tags[j]) == tag
  {
    if Matches(TagIs(tag), q) {
      var j :| 0 <= j < |q.tags| && LowerAll(q.tags)[j] == tag;
      assert Lower(q.tags[j]) == tag;
    }
  }
}

=== FILE: routes.dfy ===
/** The read-only route handlers of the quotes API, each a pure function from
    the loaded collection and the already-parsed request parameters to a
    response body or an error. */
module Routes {
  import opened JsArray
  import opened JsString
  import opened Quotes
  import opened TagIndex

  /** An error response: HTTP status and the `error` message of the body. */
  datatype Error = Error(status: nat, message: string)

  const MissingQuery: Error := Error(400, "Missing search query")
  const QuoteNotFound: Error := Error(404, "Quote not found")

  datatype Result<T> = Ok(value: T) | Err(error: Error)

  /** Body of `GET /quotes`. */
  datatype Page = Page(page: int, limit: int, total: nat, results: seq<Quote>)

  /** Body of `GET /quotes/search`. */
  datatype SearchResults = SearchResults(query: string, total: nat, results: seq<Quote>)

  /** Body of `GET /quotes/author/:name`. */
  datatype AuthorResults = AuthorResults(author: string, total: nat, results: seq<Quote>)

  /** Body of `GET /quotes/tag/:tag`. */
  datatype TagResults = TagResults(tag: string, total: nat, results: seq<Quote>)

  /** Body of `GET /quotes/date/:date`. */
  datatype DateResults = DateResults(date: string, total: nat, results: seq<Quote>)

  /** The `filter` object echoed by `GET /quotes/length`; an `Unlimited`
      maximum is rendered as "unlimited". */
  datatype LengthFilter = LengthFilter(min: int, max: Bound)

  /** Body of `GET /quotes/length`. */
  datatype LengthResults = LengthResults(filter: LengthFilter, total: nat, results: seq<Quote>)

  /** Body of `GET /tags`. */
  datatype TagList = TagList(total: nat, tags: seq<string>)

  // ---------------------------------------------------------------- /quote/random

  /** `Math.floor(u * n)` where `u` is the value `Math.random()` returned. */
  function RandomIndex(u: real, n: nat): (i: int)
    requires 0.0 <= u < 1.0
    ensures n > 0 ==> 0 <= i < n
    ensures n == 0 ==> i == 0
  {
    ScaleBelow(u, n as real);
    (u * n as real).Floor
  }

  lemma ScaleBelow(u: real, n: real)
    requires 0.0 <= u < 1.0 && 0.0 <= n
    ensures 0.0 <= u * n <= n
    ensures 0.0 < n ==> u * n < n
  {
    assert (1.0 - u) * n >= 0.0;
    assert 0.0 < n ==> (1.0 - u) * n > 0.0;
  }

  /** `GET /quote/random`: `quotes[Math.floor(Math.random() * quotes.length)]`,
      with the random draw `u` as a parameter. `None` is the `undefined` an
      empty collection yields. */
  function RandomQuote(quotes: seq<Quote>, u: real): (r: Option<Quote>)
    requires 0.0 <= u < 1.0
    ensures r.None? <==> |quotes| == 0
    ensures r.Some? ==> r.value in quotes
  {
    var i := RandomIndex(u, |quotes|);
    if 0 <= i < |quotes| then Some(quotes[i]) else None
  }

  /** Every quote can be drawn: in exact arithmetic, the draw `i / n` lands
      on index `i`. */
  lemma RandomReachesEvery(quotes: seq<Quote>, i: nat)
    requires i < |quotes|
    ensures 0.0 <= i as real / |quotes| as real < 1.0
    ensures RandomQuote(quotes, i as real / |quotes| as real) == Some(quotes[i])
  {
    var n := |quotes| as real;
    var u := i as real / n;
    assert u * n == i as real;
    assert RandomIndex(u, |quotes|) == (i as real).Floor == i;
  }

  // ---------------------------------------------------------------- /quotes

  /** `GET /quotes?page=&limit=`: both parameters fall back through `|| d`,
      then the page is `PageSlice` of the resulting values. */
  function Paginate(quotes: seq<Quote>, page: Option<int>, limit: Option<int>): (r: Page)
    ensures r.total == |quotes|
    ensures page.None? || page == Some(0) ==> r.page == 1
    ensures page.Some? && page.value != 0 ==> r.page == page.value
    ensures limit.None? || limit == Some(0) ==> r.limit == |quotes|
    ensures limit.Some? && limit.value != 0 ==> r.limit == limit.value
    ensures r.results == PageSlice(quotes, r.page, r.limit)
  {
    var p := OrDefault(page, 1);
    var l := OrDefault(limit, |quotes|);
    Page(p, l, |quotes|, PageSlice(quotes, p, l))
  }

  /** `quotes.slice((page - 1) * limit, (page - 1) * limit + limit)`. For a
      positive page and limit both bounds are non-negative, so the page is
      the ordinary window `quotes[min(start, n)..min(start + limit, n)]`.
      `start` is written `Times(page - 1, limit)`, which `TimesIsProduct`
      shows is `(page - 1) * limit`. */
  function PageSlice(quotes: seq<Quote>, page: int, limit: int): (r: seq<Quote>)
    ensures page >= 1 && limit >= 1 ==>
              var start := Times(page - 1, limit);
              r == quotes[Min(start, |quotes|)..Min(start + limit, |quotes|)]
  {
    var start := Times(page - 1, limit);
    if page >= 1 && limit >= 1 then
      SliceNonNegative(quotes, start, start + limit);
      Slice(quotes, start, start + limit)
    else
      Slice(quotes, start, start + limit)
  }

  /** Requesting the `page` and `limit` a response echoes gives the same
      response again: the echoed values are never falsy unless the
      collection, and with it the fallback, is empty. */
  lemma EchoIsStable(quotes: seq<Quote>, page: Option<int>, limit: Option<int>)
    ensures var r := Paginate(quotes, page, limit);
            Paginate(quotes, Some(r.page), Some(r.limit)) == r
  {
    var r := Paginate(quotes, page, limit);
    var r' := Paginate(quotes, Some(r.page), Some(r.limit));
    assert r'.page == r.page && r'.limit == r.limit;
  }

  /** For a positive page and limit, the page holds `min(limit, total - start)`
      quotes when `start < total`, and none otherwise. */
  lemma PageSize(quotes: seq<Quote>, page: int, limit: int)
    requires page >= 1 && limit >= 1
    ensures var r := Paginate(quotes, Some(page), Some(limit));
            var start := Times(page - 1, limit);
            |r.results| == if start < |quotes| then Min(limit, |quotes| - start) else 0
  {
    WindowSize(quotes, Times(page - 1, limit), limit);
  }

  lemma WindowSize<T>(s: seq<T>, start: nat, len: nat)
    ensures |s[Min(start, |s|)..Min(start + len, |s|)]|
              == if start < |s| then Min(len, |s| - start) else 0
  {
  }

  /** A page past the end is empty, not an error, and `total` still counts
      the whole collection. */
  lemma PastTheEndIsEmpty(quotes: seq<Quote>, page: int, limit: int)
    requires page >= 1 && limit >= 1
    requires Times(page - 1, limit) >= |quotes|
    ensures Paginate(quotes, Some(page), Some(limit)).results == []
    ensures Paginate(quotes, Some(page), Some(limit)).total == |quotes|
  {
  }

  /** `limit=0` is falsy, so it becomes `quotes.length`: the first page is
      then the whole collection, not an empty page. */
  lemma LimitZeroIsWholeCollection(quotes: seq<Quote>, page: Option<int>)
    requires page.None? || page == Some(0) || page == Some(1)
    ensures Paginate(quotes, page, Some(0)).limit == |quotes|
    ensures Paginate(quotes, page, Some(0)).results == quotes
  {
  }

  /** A negative page makes both slice bounds negative, and `slice` counts
      them from the end of the collection. */
  lemma NegativePageCountsFromEnd(quotes: seq<Quote>, page: int, limit: int)
    requires page < 0 && limit >= 1
    ensures var n := |quotes|;
            Paginate(quotes, Some(page), Some(limit)).results
              == quotes[Max(n + Times(page - 1, limit), 0)..Max(n + Times(page, limit), 0)]
  {
    TimesStep(page - 1, limit);
  }

  /** With a negative limit every page but the first is empty: `end` lies
      below `start`, and both bounds have the same sign, so `slice` keeps
      nothing. */
  lemma NegativeLimitEmptyAfterFirstPage(quotes: seq<Quote>, page: int, limit: int)
    requires limit < 0 && page != 0 && page != 1
    ensures Paginate(quotes, Some(page), Some(limit)).results == []
  {
    if page < 0 {
      TimesStep(page - 1, limit);
      assert Times(page - 1, limit) + limit >= 0;
    }
  }

  /** A negative limit on the first page drops that many quotes from the
      end: `slice(0, limit)` with `limit < 0`. */
  lemma NegativeLimitDropsTail(quotes: seq<Quote>, limit: int)
    requires limit < 0
    ensures Paginate(quotes, Some(1), Some(limit)).results == quotes[..Max(|quotes| + limit, 0)]
  {
  }

  // ---------------------------------------------------------------- /quotes/search

  /** `GET /quotes/search?q=`: a missing or empty `q` is the 400 error;
      otherwise the quotes whose lower-cased content contains the lower-cased
      query, in collection order, with the query echoed as given. */
  function Search(quotes: seq<Quote>, q: Option<string>): (r: Result<SearchResults>)
    ensures r.Err? <==> q.None? || q.value == ""
    ensures r.Err? ==> r.error == MissingQuery
    ensures r.Ok? ==> r.value.query == q.value && r.value.total == |r.value.results|
    ensures r.Ok? ==> forall x :: x in r.value.results <==>
              x in quotes && Includes(Lower(x.content), Lower(q.value))
    ensures r.Ok? ==> SelectedBy(r.value.results, quotes, Callback(ContentHas(Lower(q.value))))
  {
    match q
    case None => Err(MissingQuery)
    case Some(text) =>
      var needle := Lower(text);
      if needle == "" then Err(MissingQuery)
      else
        var results := Filter(quotes, Callback(ContentHas(needle)));
        Ok(SearchResults(text, |results|, results))
  }

  /** Search ignores case on both sides: a quote whose content contains the
      query verbatim is always found. */
  lemma SearchFindsVerbatim(quotes: seq<Quote>, q: string, x: Quote)
    requires q != "" && x in quotes && Includes(x.content, q)
    ensures Search(quotes, Some(q)).Ok?
    ensures x in Search(quotes, Some(q)).value.results
  {
    IncludesLowered(x.content, q);
  }

  // ---------------------------------------------------------------- /quotes/author/:name

  /** `GET /quotes/author/:name`: case-insensitive substring match on the
      author, in collection order. */
  function ByAuthor(quotes: seq<Quote>, name: string): (r: AuthorResults)
    ensures r.author == name && r.total == |r.results|
    ensures forall x :: x in r.results <==> x in quotes && Includes(Lower(x.author), Lower(name))
    ensures SelectedBy(r.results, quotes, Callback(AuthorHas(Lower(name))))
  {
    var results := Filter(quotes, Callback(AuthorHas(Lower(name))));
    AuthorResults(name, |results|, results)
  }

  // ---------------------------------------------------------------- /quotes/tag/:tag

  /** `GET /quotes/tag/:tag`: some tag of the quote equals the requested tag
      once both are lower-cased; a tag that merely contains it does not
      match. */
  function ByTag(quotes: seq<Quote>, tag: string): (r: TagResults)
    ensures r.tag == tag && r.total == |r.results|
    ensures forall x :: x in r.results <==>
              x in quotes && exists j :: 0 <= j < |x.tags| && Lower(x.tags[j]) == Lower(tag)
    ensures SelectedBy(r.results, quotes, Callback(TagIs(Lower(tag))))
  {
    var results := Filter(quotes, Callback(TagIs(Lower(tag))));
    TagResults(tag, |results|, results)
  }

  // ---------------------------------------------------------------- /quote/:id

  /** `quotes[i]` is the first quote whose `_id` is `id`. */
  ghost predicate FirstWithId(quotes: seq<Quote>, id: string, i: int)
  {
    0 <= i < |quotes| && quotes[i]._id == id && forall j :: 0 <= j < i ==> quotes[j]._id != id
  }

  /** `GET /quote/:id`: the first quote whose `_id` equals `id` exactly, or
      the 404 error when there is none. */
  function ById(quotes: seq<Quote>, id: string): (r: Result<Quote>)
    ensures r.Ok? <==> exists i :: 0 <= i < |quotes| && quotes[i]._id == id
    ensures r.Err? ==> r.error == QuoteNotFound
    ensures r.Ok? ==> exists i :: FirstWithId(quotes, id, i) && quotes[i] == r.value
  {
    match Find(quotes, Callback(IdIs(id)))
    case None => Err(QuoteNotFound)
    case Some(i) =>
      assert FirstWithId(quotes, id, i);
      Ok(quotes[i])
  }

  predicate UniqueIds(quotes: seq<Quote>)
  {
    forall i, j :: 0 <= i < j < |quotes| ==> quotes[i]._id != quotes[j]._id
  }

  /** When identifiers are unique, looking a quote up by its own `_id`
      returns exactly that record. */
  lemma ByIdFindsRecord(quotes: seq<Quote>, i: nat)
    requires UniqueIds(quotes) && i < |quotes|
    ensures ById(quotes, quotes[i]._id) == Ok(quotes[i])
  {
    var r := ById(quotes, quotes[i]._id);
    var k :| FirstWithId(quotes, quotes[i]._id, k) && quotes[k] == r.value;
  }

  // ---------------------------------------------------------------- /quotes/date/:date

  /** `GET /quotes/date/:date`: the quotes whose `dateAdded` starts with
      `date`, compared case-sensitively, in collection order. */
  function ByDate(quotes: seq<Quote>, date: string): (r: DateResults)
    ensures r.date == date && r.total == |r.results|
    ensures forall x :: x in r.results <==>
              x in quotes && |date| <= |x.dateAdded| && x.dateAdded[..|date|] == date
    ensures SelectedBy(r.results, quotes, Callback(DatePrefix(date)))
  {
    var results := Filter(quotes, Callback(DatePrefix(date)));
    DateResults(date, |results|, results)
  }

  // ---------------------------------------------------------------- /tags

  /** `GET /tags`: the distinct tag strings, compared exactly, sorted in the
      default string order. `total` is the size of the set. */
  function ListTags(quotes: seq<Quote>): (r: TagList)
    ensures Ascending(r.tags)
    ensures r.total == |r.tags|
    ensures r.total == |AllTags(quotes)|
    ensures forall t :: t in r.tags <==> exists i :: 0 <= i < |quotes| && t in quotes[i].tags
  {
    var distinct := DistinctTags(quotes);
    DistinctTagsCount(quotes);
    TagList(|distinct|, Sort(distinct))
  }

  /** The listing is the one ascending arrangement of the collection's tag
      strings: no other order and no other selection could be returned. */
  lemma ListTagsIsDetermined(quotes: seq<Quote>, s: seq<string>)
    requires Ascending(s)
    requires forall t :: t in s <==> exists i :: 0 <= i < |quotes| && t in quotes[i].tags
    ensures ListTags(quotes).tags == s
  {
    AscendingUnique(ListTags(quotes).tags, s);
  }

  // ---------------------------------------------------------------- /quotes/length

  /** `parseInt(max) || Infinity`. */
  function MaxBound(max: Option<int>): (b: Bound)
    ensures b.Unlimited? <==> max.None? || max == Some(0)
    ensures b.AtMost? ==> max == Some(b.n)
  {
    match max
    case None => Unlimited
    case Some(m) => if m == 0 then Unlimited else AtMost(m)
  }

  /** `GET /quotes/length?min=&max=`: the quotes whose stored length lies in
      `[min, max]`, both ends included. */
  function ByLength(quotes: seq<Quote>, min: Option<int>, max: Option<int>): (r: LengthResults)
    ensures min.None? || min == Some(0) ==> r.filter.min == 0
    ensures min.Some? && min.value != 0 ==> r.filter.min == min.value
    ensures r.filter.max == MaxBound(max)
    ensures r.total == |r.results|
    ensures forall x :: x in r.results <==>
              x in quotes && r.filter.min <= x.length && (r.filter.max.AtMost? ==> x.length <= r.filter.max.n)
    ensures SelectedBy(r.results, quotes, Callback(LengthWithin(r.filter.min, r.filter.max)))
  {
    var lo := OrDefault(min, 0);
    var hi := MaxBound(max);
    var results := Filter(quotes, Callback(LengthWithin(lo, hi)));
    LengthResults(LengthFilter(lo, hi), |results|, results)
  }

  /** Both ends of the range are inclusive. */
  lemma LengthBoundsInclusive(quotes: seq<Quote>, x: Quote, lo: int, hi: int)
    requires x in quotes && lo <= hi
    requires x.length == lo || x.length == hi
    ensures x in ByLength(quotes, Some(lo), Some(hi)).results
  {
  }

  /** A minimum above a finite maximum selects nothing; it is not an error. */
  lemma LengthEmptyWhenMinAboveMax(quotes: seq<Quote>, min: Option<int>, max: Option<int>)
    requires var f := ByLength(quotes, min, max).filter; f.max.AtMost? && f.min > f.max.n
    ensures ByLength(quotes, min, max).results == []
    ensures ByLength(quotes, min, max).total == 0
  {
    var r := ByLength(quotes, min, max);
    if r.results != [] {
      HeadIsMember(r.results);
      assert false;
    }
  }
}

=== FILE: scenarios.dfy ===
/** Worked examples on small collections, and the two places where the
    handlers behave differently from what a reader might expect: `limit=0`
    and tags that differ only in case. */
module Scenarios {
  import opened JsArray
  import opened JsString
  import opened Quotes
  import opened TagIndex
  import opened Routes

  /** The stored `length` (49) is not the character count of `content`; the
      handlers use the stored value as it is. */
  const Jobs: Quote := Quote(
    "q1",
    "The only way to do great work is to love what you do.",
    "Steve Jobs",
    ["work", "passion"],
    49,
    "2023-01-01")

  lemma LookupExample()
    ensures ById([Jobs], "q1") == Ok(Jobs)
    ensures ById([Jobs], "q2") == Err(QuoteNotFound)
  {
    assert [Jobs][0]._id == "q1";
  }

  lemma ContentHasLove()
    ensures OccursAt(Lower(Jobs.content), "love", 36)
  {
    var c := Jobs.content;
    assert c[36] == 'l' && c[37] == 'o' && c[38] == 'v' && c[39] == 'e';
    var l := Lower(c);
    assert l[36] == 'l' && l[37] == 'o' && l[38] == 'v' && l[39] == 'e';
    assert l[36..40] == "love";
  }

  /** The one-quote collection's filter keeps its quote exactly when it matches. */
  lemma SingleFilter(c: Criterion)
    ensures Matches(c, Jobs) ==> Filter([Jobs], Callback(c)) == [Jobs]
    ensures !Matches(c, Jobs) ==> Filter([Jobs], Callback(c)) == []
  {
    var r := Filter([Jobs], Callback(c));
    assert [Jobs][0] == Jobs;
    if r != [] {
      HeadIsMember(r);
      assert r[0] == Jobs;
    }
  }

  lemma SearchExample()
    ensures Search([Jobs], Some("LOVE")).Ok?
    ensures Search([Jobs], Some("LOVE")).value.results == [Jobs]
    ensures Search([Jobs], Some("LOVE")).value.query == "LOVE"
    ensures Search([Jobs], Some("")) == Err(MissingQuery)
    ensures Search([Jobs], None) == Err(MissingQuery)
  {
    assert Lower("LOVE") == "love";
    ContentHasLove();
    SingleFilter(ContentHas("love"));
  }

  lemma AuthorExample()
    ensures ByAuthor([Jobs], "steve").results == [Jobs]
    ensures ByAuthor([Jobs], "jobs").total == 1
  {
    assert Lower(Jobs.author) == "steve jobs";
    assert Lower("steve") == "steve" && Lower("jobs") == "jobs";
    assert OccursAt("steve jobs", "steve", 0);
    assert OccursAt("steve jobs", "jobs", 6);
    SingleFilter(AuthorHas("steve"));
    SingleFilter(AuthorHas("jobs"));
  }

  lemma TagExample()
    ensures ByTag([Jobs], "WORK").results == [Jobs]
    ensures ByTag([Jobs], "wor").results == []
  {
    assert Lower("WORK") == "work" && Lower("work") == "work";
    assert |Lower("wor")| == 3 && |Lower("passion")| == 7;
    assert Lower(Jobs.tags[0]) == "work";
    SingleFilter(TagIs("work"));
    assert Lower(Jobs.tags[1]) != Lower("wor");
    SingleFilter(TagIs(Lower("wor")));
  }

  lemma LengthExample()
    ensures ByLength([Jobs], Some(49), Some(49)).results == [Jobs]
    ensures ByLength([Jobs], Some(50), None).results == []
    ensures ByLength([Jobs], Some(50), None).filter.max == Unlimited
  {
    var r := ByLength([Jobs], Some(49), Some(49)).results;
    assert Jobs in r && |r| <= 1;
    var r' := ByLength([Jobs], Some(50), None).results;
    if r' != [] {
      HeadIsMember(r');
      assert false;
    }
  }

  lemma DateExample()
    ensures ByDate([Jobs], "2023").results == [Jobs]
    ensures ByDate([Jobs], "2023-02").results == []
  {
    assert Jobs.dateAdded[..4] == "2023";
    var r := ByDate([Jobs], "2023").results;
    assert Jobs in r && |r| <= 1;
    assert Jobs.dateAdded[..7] != "2023-02" by {
      assert Jobs.dateAdded[6] == '1';
    }
    var r' := ByDate([Jobs], "2023-02").results;
    if r' != [] {
      HeadIsMember(r');
      assert false;
    }
  }

  /** `page=1&limit=0` returns the whole collection with `limit` set to its
      size, not an empty page. */
  lemma LimitZeroExample()
    ensures Paginate([Jobs], Some(1), Some(0)) == Page(1, 1, 1, [Jobs])
  {
    LimitZeroIsWholeCollection([Jobs], Some(1));
  }

  /** Tags are deduplicated by exact string: "Work" and "work" are both
      listed, upper case first in the default order. */
  lemma CaseVariantTagsExample()
    ensures ListTags([Jobs.(tags := ["Work"]), Jobs.(tags := ["work", "Work"])])
              == TagList(2, ["Work", "work"])
  {
    var quotes := [Jobs.(tags := ["Work"]), Jobs.(tags := ["work", "Work"])];
    var expected := ["Work", "work"];
    assert Less("Work", "work");
    assert "Work" in quotes[0].tags && "work" in quotes[1].tags;
    forall t
      ensures t in expected <==> exists i :: 0 <= i < |quotes| && t in quotes[i].tags
    {
      if exists i :: 0 <= i < |quotes| && t in quotes[i].tags {
        var i :| 0 <= i < |quotes| && t in quotes[i].tags;
        assert i == 0 || i == 1;
      }
    }
    ListTagsIsDetermined(quotes, expected);
  }
}

=== FILE: tag_index.dfy ===
/** The tag listing: every tag of every quote is added to a JavaScript `Set`
    (insertion-ordered, duplicates dropped by exact string equality), and the
    set's contents are then sorted with the default string order. */
module TagIndex {
  import opened JsArray
  import opened JsString
  import opened Quotes

  predicate NoDuplicates(s: seq<string>)
  {
    forall i, j :: 0 <= i < j < |s| ==> s[i] != s[j]
  }

  /** Strictly ascending in the default sort order (hence duplicate-free). */
  predicate Ascending(s: seq<string>)
  {
    forall i, j :: 0 <= i < j < |s| ==> Less(s[i], s[j])
  }

  /** `t` is verbatim one of the tags of some quote in `quotes[from..]`. */
  ghost predicate TagFrom(quotes: seq<Quote>, t: string, from: nat)
  {
    exists i :: from <= i < |quotes| && t in quotes[i].tags
  }

  /** Every tag string of the collection, as a mathematical set. */
  function AllTags(quotes: seq<Quote>): set<string>
  {
    set i, j | 0 <= i < |quotes| && 0 <= j < |quotes[i].tags| :: quotes[i].tags[j]
  }

  /** `r` starts with `acc`: a `Set` keeps its earlier entries, in order. */
  predicate Extends(r: seq<string>, acc: seq<string>)
  {
    |acc| <= |r| && forall i :: 0 <= i < |acc| ==> r[i] == acc[i]
  }

  /** `set.add(t)` on an insertion-ordered set held as a sequence. */
  function Add(acc: seq<string>, t: string): (r: seq<string>)
    requires NoDuplicates(acc)
    ensures NoDuplicates(r)
    ensures forall x :: x in r <==> x in acc || x == t
    ensures Extends(r, acc)
  {
    if t in acc then acc else acc + [t]
  }

  /** `ts.forEach((tag) => set.add(tag))`. */
  function AddAll(acc: seq<string>, ts: seq<string>): (r: seq<string>)
    requires NoDuplicates(acc)
    ensures NoDuplicates(r)
    ensures forall x :: x in r <==> x in acc || x in ts
    ensures Extends(r, acc)
    decreases |ts|
  {
    if |ts| == 0 then acc
    else
      var next := Add(acc, ts[0]);
      var r := AddAll(next, ts[1..]);
      assert forall x :: x in ts <==> x == ts[0] || x in ts[1..] by {
        assert ts == [ts[0]] + ts[1..];
      }
      r
  }

  /** `quotes.forEach((q) => q.tags.forEach((tag) => set.add(tag)))`, from
      `quotes[from]` on. */
  function CollectFrom(acc: seq<string>, quotes: seq<Quote>, from: nat): (r: seq<string>)
    requires NoDuplicates(acc)
    requires from <= |quotes|
    ensures NoDuplicates(r)
    ensures forall x :: x in r <==> x in acc || TagFrom(quotes, x, from)
    ensures Extends(r, acc)
    decreases |quotes| - from
  {
    if from == |quotes| then acc
    else CollectFrom(AddAll(acc, quotes[from].tags), quotes, from + 1)
  }

  /** The contents of the `Set` once every tag has been added, in
      first-seen order. */
  function DistinctTags(quotes: seq<Quote>): (r: seq<string>)
    ensures NoDuplicates(r)
    ensures forall x :: x in r <==> x in AllTags(quotes)
  {
    var r := CollectFrom([], quotes, 0);
    assert forall x :: x in AllTags(quotes) <==> TagFrom(quotes, x, 0) by {
      forall x
        ensures x in AllTags(quotes) <==> TagFrom(quotes, x, 0)
      {
        if TagFrom(quotes, x, 0) {
          var i :| 0 <= i < |quotes| && x in quotes[i].tags;
          var j :| 0 <= j < |quotes[i].tags| && quotes[i].tags[j] == x;
        }
      }
    }
    r
  }

  /** A duplicate-free sequence has as many elements as its set. */
  lemma {:induction false} DistinctCardinality(s: seq<string>)
    requires NoDuplicates(s)
    ensures |set x | x in s| == |s|
  {
    if |s| != 0 {
      var init := s[..|s| - 1];
      DistinctCardinality(init);
      assert (set x | x in s) == (set x | x in init) + {s[|s| - 1]};
      assert s[|s| - 1] !in (set x | x in init);
    }
  }

  /** `tags.size` is the number of distinct tag strings in the collection. */
  lemma DistinctTagsCount(quotes: seq<Quote>)
    ensures |DistinctTags(quotes)| == |AllTags(quotes)|
  {
    var r := DistinctTags(quotes);
    DistinctCardinality(r);
    assert (set x | x in r) == AllTags(quotes);
  }

  /** Prepending an element below everything keeps a sequence ascending. */
  lemma AscendingCons(h: string, s: seq<string>)
    requires Ascending(s)
    requires forall x :: x in s ==> Less(h, x)
    ensures Ascending([h] + s)
  {
    var r := [h] + s;
    forall i, j | 0 <= i < j < |r|
      ensures Less(r[i], r[j])
    {
      if i == 0 {
        assert r[j] == s[j - 1];
      } else {
        assert r[i] == s[i - 1] && r[j] == s[j - 1];
      }
    }
  }

  /** Inserting a new string into an ascending sequence at its place. */
  function Insert(s: seq<string>, t: string): (r: seq<string>)
    requires Ascending(s) && t !in s
    ensures Ascending(r)
    ensures |r| == |s| + 1
    ensures forall x :: x in r <==> x in s || x == t
  {
    if |s| == 0 then [t]
    else if Less(t, s[0]) then
      InsertBeforeHead(s, t);
      [t] + s
    else
      var rest := Insert(s[1..], t);
      InsertAfterHead(s, t, rest);
      [s[0]] + rest
  }

  lemma InsertBeforeHead(s: seq<string>, t: string)
    requires Ascending(s) && |s| > 0 && Less(t, s[0])
    ensures Ascending([t] + s)
  {
    forall x | x in s
      ensures Less(t, x)
    {
      var k :| 0 <= k < |s| && s[k] == x;
      if k > 0 {
        LessTransitive(t, s[0], x);
      }
    }
    AscendingCons(t, s);
  }

  lemma InsertAfterHead(s: seq<string>, t: string, rest: seq<string>)
    requires Ascending(s) && |s| > 0 && t !in s && !Less(t, s[0])
    requires Ascending(rest)
    requires forall x :: x in rest <==> x in s[1..] || x == t
    ensures Ascending([s[0]] + rest)
  {
    LessTotal(t, s[0]);
    forall x | x in rest
      ensures Less(s[0], x)
    {
      if x != t {
        var k :| 0 <= k < |s[1..]| && s[1..][k] == x;
        assert s[k + 1] == x;
      }
    }
    AscendingCons(s[0], rest);
  }

  /** `[...set].sort()` on a duplicate-free array of strings. */
  function Sort(s: seq<string>): (r: seq<string>)
    requires NoDuplicates(s)
    ensures Ascending(r)
    ensures |r| == |s|
    ensures forall x :: x in r <==> x in s
  {
    if |s| == 0 then []
    else
      var init := s[..|s| - 1];
      assert s == init + [s[|s| - 1]];
      Insert(Sort(init), s[|s| - 1])
  }

  /** There is only one ascending arrangement of a set of strings: the
      listing is determined by which tags exist, not by the order in which
      the quotes mention them. */
  lemma {:induction false} AscendingUnique(a: seq<string>, b: seq<string>)
    requires Ascending(a) && Ascending(b)
    requires forall x :: x in a <==> x in b
    ensures a == b
    decreases |a|
  {
    if |a| == 0 && |b| == 0 {
    } else if |a| == 0 {
      HeadIsMember(b);
      assert false;
    } else if |b| == 0 {
      HeadIsMember(a);
      assert false;
    } else {
      assert a[0] in a && b[0] in b;
      if a[0] != b[0] {
        var k :| 0 <= k < |b| && b[k] == a[0];
        var m :| 0 <= m < |a| && a[m] == b[0];
        LessAsymmetric(a[0], a[m]);
        assert false;
      }
      forall x
        ensures x in a[1..] <==> x in b[1..]
      {
        if x in a[1..] {
          var k :| 0 <= k < |a[1..]| && a[1..][k] == x;
          assert a[k + 1] == x && Less(a[0], x);
          LessIrreflexive(x);
          assert x in a && x in b;
          var m :| 0 <= m < |b| && b[m] == x;
          assert m != 0 && b[1..][m - 1] == x;
        }
        if x in b[1..] {
          var k :| 0 <= k < |b[1..]| && b[1..][k] == x;
          assert b[k + 1] == x && Less(b[0], x);
          LessIrreflexive(x);
          assert x in b && x in a;
          var m :| 0 <= m < |a| && a[m] == x;
          assert m != 0 && a[1..][m - 1] == x;
        }
      }
      AscendingUnique(a[1..], b[1..]);
      assert a == [a[0]] + a[1..] && b == [b[0]] + b[1..];
    }
  }
}
